=== FILE: README.md ===
# DraftIt AI session and billing workflow in Dafny

DraftIt AI is a letter-drafting web front end. A user picks a template from a catalog and fills in its form. A language model then writes the letter. For a signed-in user, the letter is saved and one credit is taken from the balance. A guest's letter is only kept in memory. When the guest signs in, the letter is *claimed*: it is saved under the new account and one credit is logged against it.

This project models that workflow as an explicit state machine:

- `Session.State` is one immutable record. It holds the user, the profile with its credit balance, the selected template, the document on screen, the history, the last submitted form, the fingerprint of the last successful input, the pending flag, the error, and the login prompt.
- Each user action or identity event is a pure function. It returns the next state and the list of collaborator calls it makes (`Session.Effect`).
- Collaborator answers are parameters, never effects inside the model. These are the generator's text or error, the id an insert returns, and the clock string.
- `Generator.Classify` models how the generator service turns its configuration and the SDK's raw answer into the letter text or a user-facing error.
- `Workflow.Run` drives the session through a sequence of events. Identity events take the session's own current user as the previous identity, and a sign-in from a guest session carries out the claim it asks for. The switch `Env.rejectBlank` is not a setting of the program. It chooses between the classifier as written (`false`, `Generator.Classify`) and the corrected, blank-rejecting one from the finding below (`true`, `Generator.ClassifyNonBlank`).

Modules:

- `Wrappers`: option and result types.
- `Types`: the record shapes.
- `Catalog`: the six templates and the lookup by kind.
- `Text`: ECMAScript `trim` and `includes`.
- `Generator`: the outcome classifier.
- `Session`: the state and its transitions.
- `SessionProperties`: properties of whole submissions, claims and identity changes.
- `Workflow`: event runs, the credit-floor invariant and the at-most-once claim.

Modelling choices:

- The fingerprint is the `JSON.stringify` string of the form entries held in a ref that starts as `""`. It is modelled as `Option<FormData>`. `None` stands for the initial `""`, which no serialized object can equal. Equality on the ordered (name, value) entries stands for string equality.
- The transient id is `Date.now().toString()`. The claim step tells it apart from a stored id only by length (at most 15 characters). Two hypotheses give the ids their shape. `Session.TransientIdShape` says a clock id is the decimal numeral of a millisecond count below 10^15, written by `Session.Decimal`. `Session.StorageIdShape` says a stored id is a UUID in its 36-character text form. The id type itself does not assume either. `Session.ClockIdsClaimable` proves that the length test admits every clock id, and `Session.StorageIdsNotClaimable` that it rejects every stored id.
- The identity handler in the source reads the previous user from a captured variable. `Session.AuthTransition` takes it as an argument instead.
- `CompleteGeneration` takes the template from `s.selected`. It requires one to be present, which the guard half has already ensured.

Where the code departs from what its own messages and comments promise, the model follows the code:

- The quota guard fires only when the profile has been loaded (App.tsx:162). A signed-in user whose profile has not arrived yet is let through. See `SessionProperties.QuotaGuardNeedsProfile`.
- The duplicate guard compares only the fingerprint, and only while a document is on screen (App.tsx:171). It does not check which template is selected.
- A successful generation by a signed-in user writes the debited balance even when the document insert failed (App.tsx:196-198). The debit is not tied to a successful save.
- A claim does not change the balance on the client. It logs one credit and fetches the profile again (App.tsx:49-55).
- Signing out is not a full reset (App.tsx:79-84). It clears the profile, the history, the document on screen and the selected template. The submitted form, the fingerprint of the last success, the error, the pending flag and the login prompt all survive it. The previous user's input therefore still arms the duplicate guard, and it refills the form fields of the same name (App.tsx:373-376). Once the next user opens a stored document (App.tsx:455), resubmitting that input is refused as already generated, for a document this user never generated. See `SessionProperties.PreviousUsersInputStillDuplicate`.

## Model

| member | source | states |
|---|---|---|
| Text.Trim | services/geminiService.ts:69 | the result is the input with whitespace cut from both ends: the input is whitespace, the result, whitespace; the result has no whitespace at either end; it is empty exactly when the input is all whitespace |
| Text.TrimUnique | services/geminiService.ts:69 | any string that splits its input into whitespace, itself and whitespace, with no edge whitespace, is the trim of that input |
| Text.TrimIdempotent | services/geminiService.ts:69 | trimming a trimmed string changes nothing |
| Text.TrimStart | services/geminiService.ts:69 | the result is a suffix of the input, everything removed is whitespace, and the result does not start with whitespace |
| Text.TrimEnd | services/geminiService.ts:69 | the result is a prefix of the input, everything removed is whitespace, and the result does not end with whitespace |
| Text.Contains | services/geminiService.ts:74 | a string includes only patterns no longer than itself, and every string includes the empty pattern |
| Text.ContainsIffOccurs | services/geminiService.ts:74 | the recursive search holds exactly when the pattern occurs at some index of the string |
| Text.ContainsNeedsFirstChar | services/geminiService.ts:74 | a string that includes a non-empty pattern holds the pattern's first character |
| Generator.IsBlankText | services/geminiService.ts:65 | text the emptiness check rejects is absent or trims to the empty string |
| Generator.CatchMessage | services/geminiService.ts:70-79 | a caught failure becomes the busy message exactly when its message includes 429, and the generic message otherwise |
| Generator.Classify | services/geminiService.ts:24-80 | without a key the result is the configuration error; the result is a success exactly when the SDK answered with non-empty text, and the success is that text trimmed; every failure carries one of the three user-facing messages |
| Generator.UnconfiguredIgnoresSdk | services/geminiService.ts:22-28 | without a key every SDK outcome gives the same configuration error |
| Generator.EmptyResponseIsGeneric | services/geminiService.ts:65-78 | an absent or empty reply reaches the caller as the generic failure, not as the empty-response message |
| Generator.EmptyResponseNotRateLimited | services/geminiService.ts:66 | the empty-response message does not include 429 |
| Generator.ThrownErrorMapping | services/geminiService.ts:74-78 | a thrown error mentioning 429 becomes the busy message; every other thrown error becomes the generic message |
| Generator.SuccessIsTrimmed | services/geminiService.ts:69 | a successful result is unchanged by trimming it again |
| Generator.WhitespaceOnlyYieldsEmpty | services/geminiService.ts:65-69 | whitespace-only text passes the emptiness check and succeeds as the empty string |
| Generator.BlankResponseAccepted | services/geminiService.ts:65-69 | a reply of one space is accepted as an empty document |
| Generator.ClassifyNonBlank | services/geminiService.ts:65-69 | the blank-rejecting classifier succeeds exactly when the SDK answered with text that is not all whitespace, and a success is never empty |
| Generator.ClassifiersAgreeOffBlank | services/geminiService.ts:51-79 | the two classifiers give the same answer on every outcome other than whitespace-only text |
| Catalog.FindByType | App.tsx:456 | the lookup returns the first catalog template of the document's kind, and returns none exactly when no template has that kind |
| Catalog.CatalogCoversEveryType | constants.tsx:4-87 | every document kind has a template in the catalog |
| Session.QuotaExhausted | App.tsx:162 | the quota guard never fires for a guest or before the profile has loaded; when it fires, the balance a debit would write is 0 |
| Session.Decimal | App.tsx:182 | the clock id is a non-empty string of decimal digits with no leading zero for a positive reading |
| Session.DecimalRoundTrip | App.tsx:182 | the digits of the clock id read back as the clock reading itself |
| Session.DecimalLength | App.tsx:182 | a reading is written with at most k digits exactly when it is below 10^k |
| Session.ClockIdsClaimable | App.tsx:32 | every clock id below 10^15 milliseconds passes the claim's length test |
| Session.StorageIdsNotClaimable | App.tsx:32 | every stored id in UUID form fails the claim's length test |
| Session.Debit | App.tsx:197 | the written balance is never negative, is one less than a positive balance, and is zero otherwise |
| Session.SelectTemplate | App.tsx:150-157 | choosing a template selects it and drops the document on screen, the form and the error; nothing else changes |
| Session.BeginGeneration | App.tsx:159-178 | the generator is called exactly when a template is chosen, nothing is pending, the quota is not exhausted and the input is not a duplicate; the quota error takes priority over the duplicate error; an ignored submission changes nothing |
| Session.CompleteGeneration | App.tsx:180-215 | a failure changes only the error and the pending flag; a success puts the document on screen with the storage id or the clock id, stores the fingerprint, adds to the history only for a user, and for a signed-in user inserts the document and writes the debited balance; a success leaves the user, template, form, error and login prompt as they were |
| Session.SubmitGeneration | App.tsx:159-216 | a submission started while idle always ends idle |
| Session.ClaimDocument | App.tsx:31-60 | a document with a long id, or with storage unconfigured, is left alone; a failed insert leaves the session unchanged; a successful insert gives the document the storage id on screen and in front of the history, logs one credit and refetches the profile; one claim inserts and logs at most one document |
| Session.AuthTransition | App.tsx:71-85 | signing out clears profile, history, document and template and changes nothing else, so the form, fingerprint, error, pending flag and login prompt survive; signing in changes only the user, fetches the profile and asks for exactly one claim when coming from a guest session with a document on screen, and for none otherwise; the transition itself inserts and logs nothing |
| Session.RestoreSession | App.tsx:65-69 | the session lookup records the identity found and nothing else; it fetches that user's profile, calls nothing for no user, and never asks for a claim |
| Session.ProfileFetched | App.tsx:90-99 | a returned row replaces the profile and nothing else changes; no row changes nothing |
| Session.OpenFromHistory | App.tsx:454-457 | the stored document goes on screen under a catalog template of its kind, or under none exactly when the catalog has no such template |
| Session.CopyText | App.tsx:218-226 | a guest gets the login prompt and no clipboard write; a user with a document gets exactly that document's text copied |
| Session.DownloadPdf | App.tsx:228-231 | a guest gets the login prompt and no print; a user gets a print |
| SessionProperties.IgnoredSubmissionChangesNothing | App.tsx:161 | without a template, or while pending, a submission leaves the session identical and calls nothing |
| SessionProperties.QuotaGuardBlocks | App.tsx:162-165 | a signed-in user with a loaded, empty balance gets the free-limit error; no generator call happens, and credits, document, history and fingerprint are unchanged |
| SessionProperties.QuotaGuardNeedsProfile | App.tsx:162 | with a user but no loaded profile, the quota guard does not fire |
| SessionProperties.DuplicateRejected | App.tsx:169-174 | resubmitting the input of the document on screen gives the duplicate error and no generator call |
| SessionProperties.FingerprintOnlyOnSuccess | App.tsx:202 | the stored fingerprint changes only through a successful, generator-calling submission, and then becomes that input |
| SessionProperties.SelectTemplateRearmsGuard | App.tsx:150-153 | after choosing a template no input counts as a duplicate, and the next submission reaches the generator |
| SessionProperties.DuplicateScenario | App.tsx:169-202 | after a success, the same input is refused and a different one reaches the generator |
| SessionProperties.FailureChargesNothing | App.tsx:211-215 | a failed generation inserts nothing and writes no balance; credits, document, history and fingerprint are unchanged; the error is the failure message or the fallback when that is empty; nothing is left pending |
| SessionProperties.SuccessDebitsOneCredit | App.tsx:196-199 | a signed-in success writes exactly one balance, computed as max(0, c - 1) with a missing profile counting as 0, whether or not the insert succeeded; with a loaded profile the balance drops by exactly one |
| SessionProperties.SuccessDocumentPlacement | App.tsx:182-210 | a new document carries the storage id only after a signed-in user's successful insert and the clock id otherwise; it joins the history only for a user; a guest's submission makes no storage call |
| SessionProperties.SavedDocumentNotClaimable | App.tsx:32 | under the id-shape hypothesis, a document a signed-in user saved is never claimable |
| SessionProperties.ClaimTwicePersistsOnce | App.tsx:32-55 | under the id-shape hypothesis, replaying a successful claim changes nothing, so two claims make one insert and one usage-log entry |
| SessionProperties.SignOutForgetsUser | App.tsx:79-84 | the state after signing out does not depend on the previous profile, history, document, template or user |
| SessionProperties.SignOutThenSignInClaimsNothing | App.tsx:76-84 | signing in right after signing out asks for no claim |
| SessionProperties.ReentrantSignInClaimsNothing | App.tsx:76-78 | a sign-in event while already signed in only fetches the profile |
| SessionProperties.PreviousUsersInputStillDuplicate | App.tsx:79-84 | after a sign-out, another user's sign-in and the opening of a stored document, the previous user's input is refused as a duplicate, and the form still holds the previous user's values |
| SessionProperties.GuestClaimScenario | App.tsx:31-215 | a guest's leave application gets the clock id and stays out of the history; signing in requests one claim of it; a successful claim leaves exactly one stored copy in the history and one logged credit |
| Workflow.SignInOrOut | App.tsx:71-85 | signing out resets profile, history, document and template and calls nothing; signing in fetches the profile first; a sign-in from a guest session with a claimable document on screen and storage configured inserts it exactly once, and a successful insert puts the stored copy on screen and in front of the history and logs exactly one credit; otherwise the session only changes its user; no identity event writes the balance |
| Workflow.Step | App.tsx:62-231 | no event starts a generation that stays pending; an identity event installs the reported user; the session lookup changes only the user |
| Workflow.Run | App.tsx:62-231 | a run that starts idle ends idle; an empty run calls nothing |
| Workflow.SignInClaimsAtMostOnce | App.tsx:71-85 | one identity event inserts and logs at most one claimed document, and none unless it signs in from a guest session |
| Workflow.RepeatedSignInsClaimOnce | App.tsx:71-85 | however many sign-in events a run receives, it inserts and logs at most one claimed document, and none when it starts signed in |
| Workflow.GuestSubmission | App.tsx:150-215 | a guest's submission with a non-blank reply puts the trimmed reply on screen under the clock id and the template's kind, outside the history, after a single generator call, under either classifier |
| Workflow.GuestSignInClaims | App.tsx:31-85 | signing in from a guest session with a claimable document and an empty history puts the stored copy on screen and makes it the whole history, with one insert, one logged credit and no balance write |
| Workflow.GuestClaimRun | App.tsx:31-215 | the run select, submit, sign-in with a clock id and a successful claim insert ends signed in with exactly one stored copy of the text on screen and in the history, one insert, one logged credit and no balance write |
| Workflow.SubmitKeepsCreditFloor | App.tsx:196-199 | a submission never makes the balance negative, never writes a negative balance and never raises the balance |
| Workflow.StepKeepsCreditFloor | App.tsx:31-231 | under either classifier, every event keeps the balance non-negative and writes no negative balance; only a profile load can raise the balance |
| Workflow.RunKeepsCreditFloor | App.tsx:31-231 | across any run whose profile loads are non-negative, the balance stays non-negative and every written balance is non-negative |
| Workflow.StepChargesOnlyForText | App.tsx:181-209 | with the blank-rejecting classifier, a submission that writes a balance leaves a non-empty document on screen |
| Workflow.BlankReplyChargedForEmptyDocument | services/geminiService.ts:65-69 | with the classifier as written, a submission step whose reply is one space puts an empty document on screen and writes a debited balance for the signed-in user |

## Findings

| source | as written | input that shows it | evidently intended | confidence | as-written member | corrected member |
|---|---|---|---|---|---|---|
| services/geminiService.ts:65-69 | the emptiness check runs on the raw text and the trim runs after it, so a whitespace-only reply succeeds as an empty document, and the caller charges a signed-in user for it | the SDK answers with text " " (one space) for a signed-in user with credits | a blank reply is rejected like an empty one, so no credit pays for an empty draft | medium; not executed | Workflow.BlankReplyChargedForEmptyDocument | Generator.ClassifyNonBlank |

`Workflow.Step` runs either classifier, chosen by `Env.rejectBlank`. With it false, `Workflow.BlankReplyChargedForEmptyDocument` exhibits the charge for an empty draft. With it true, `Workflow.StepChargesOnlyForText` proves that every charged submission leaves text on screen. `Workflow.RunKeepsCreditFloor` holds under both settings.

## Left out

- Rendering, page routing, the auth form, and the Support, Privacy, Terms and Refund pages: these are UI.
- The storage client and its calls are foreign I/O. Only their answers enter, as parameters. A failed usage-log insert and a failed balance update are not modelled, because the source ignores both.
- The prompt text and the SDK call are a foreign library. Their outcome enters as `Generator.SdkOutcome`.
- The history fetch (App.tsx:101-126) is not modelled. It is a separate React effect keyed on the identity of the user object. Its possible interleaving with a claim's history prepend is therefore not modelled either.
- `handleAuth` (the sign-in and sign-up form handler) is left out, including its writes to the error: it clears it (App.tsx:132) and on failure sets it to the auth message or "Authentication failed." (App.tsx:144). A successful sign-in reaches the model as an identity event. The session lookup on page load is modelled as `Session.RestoreSession`, the `Restore` event.
- React's asynchronous updates and stale closures (App.tsx:73, 88) are left out, and so is the race between two devices on the same balance. The model is serial.
- The clock, ISO timestamps, the clipboard, `window.print`, `setTimeout`, scrolling and `alert` are environment. They enter as parameters or appear as effects.
- The copy status indicator is left out.
- The `Open` event accepts any document in any session. In the source the history list, and so its selection handler, is rendered only for a signed-in user and offers only documents of that user's history (App.tsx:454-457). No proved property depends on this.
- Exceptions thrown by the storage calls inside `handleGenerate`'s `try` are not modelled. One example is a missing row without an error. Those exceptions would show their own message after a successful generation.
- Object.fromEntries keeps only the last value for a repeated field name. The fingerprint model does not collapse repeated names, because catalog forms have unique field names.
- When storage is not configured, the source neither looks up the session nor subscribes to identity events. The model's `Restore` and `Auth` events can still occur in that mode.
- The storage schema is not part of this model. That stored ids are UUIDs in text form is a hypothesis (`Session.StorageIdShape`), used only by the lemmas that name it.
- `constants.tsx` and `types.ts` are mirrored as data and shapes. Beyond catalog coverage, nothing about them is proved.
- Session.SubmitGeneration: its own contract states only that the pending flag ends false. Its guard, charge and placement properties are stated by the SessionProperties lemmas.

=== FILE: catalog.dfy ===
/** The template catalog and the lookup that maps a document kind back to
    its template. */
module Catalog {
  import opened Wrappers
  import opened Types

  /** The catalog in declaration order: one template per document kind. */
  const Templates: seq<Template> := [
    Template("resignation", Resignation, "Professional Resignation", [
      FormField("name", "Your Full Name", TextField, true),
      FormField("company", "Company Name", TextField, true),
      FormField("title", "Your Designation", TextField, true),
      FormField("lastDay", "Your Last Working Day", DateField, true),
      FormField("reason", "Reason for leaving (Optional)", TextArea, false)]),
    Template("bank", BankComplaint, "Bank Communication", [
      FormField("name", "Account Holder Name", TextField, true),
      FormField("bankName", "Bank & Branch Name", TextField, true),
      FormField("accNumber", "Account or Card Number", TextField, true),
      FormField("issue", "Describe your problem clearly", TextArea, true)]),
    Template("police", PoliceComplaint, "Police Intimation", [
      FormField("name", "Your Full Name", TextField, true),
      FormField("address", "Your Address", TextArea, true),
      FormField("incidentType", "What was lost or what happened?", TextField, true),
      FormField("date", "Date and Time of incident", DateField, true),
      FormField("description", "Incident details", TextArea, true)]),
    Template("college", CollegeApplication, "Academic Application", [
      FormField("name", "Student Name", TextField, true),
      FormField("course", "Course & Roll Number", TextField, true),
      FormField("previousCollege", "College/School Name", TextField, true),
      FormField("achievement", "Reason or Achievement", TextArea, false)]),
    Template("apology", OfficeApology, "Workplace Apology", [
      FormField("name", "Your Name", TextField, true),
      FormField("manager", "Manager Name/Role", TextField, true),
      FormField("mistake", "What happened?", TextArea, true),
      FormField("action", "How will you fix it?", TextArea, false)]),
    Template("leave", LeaveLetter, "Leave Application", [
      FormField("name", "Your Name", TextField, true),
      FormField("type", "Type (Sick/Family/Vacation)", TextField, true),
      FormField("startDate", "Leave Start Date", DateField, true),
      FormField("endDate", "Leave End Date", DateField, true),
      FormField("reason", "Reason for Leave", TextArea, true)])
  ]

  /** The first template of `catalog` whose kind is `ty`, or None when no
      template has that kind (the source's `find(...) || null`). */
  function FindByType(catalog: seq<Template>, ty: DocType): (r: Option<Template>)
    ensures r.Some? ==> r.value in catalog && r.value.docType == ty
    ensures r.None? <==> forall i :: 0 <= i < |catalog| ==> catalog[i].docType != ty
    ensures r.Some? ==> exists i :: 0 <= i < |catalog| && catalog[i] == r.value
                                     && forall j :: 0 <= j < i ==> catalog[j].docType != ty
  {
    if |catalog| == 0 then None
    else if catalog[0].docType == ty then Some(catalog[0])
    else
      var rest := FindByType(catalog[1..], ty);
      if rest.Some? then
        ghost var i :| 0 <= i < |catalog| - 1 && catalog[1..][i] == rest.value
                      && forall j :: 0 <= j < i ==> catalog[1..][j].docType != ty;
        assert catalog[i + 1] == rest.value;
        assert forall j :: 0 <= j < i + 1 ==> catalog[j].docType != ty by {
          forall j | 0 <= j < i + 1 ensures catalog[j].docType != ty {
            if j > 0 { assert catalog[j] == catalog[1..][j - 1]; }
          }
        }
        rest
      else
        assert forall i :: 0 <= i < |catalog| ==> catalog[i].docType != ty by {
          forall i | 0 <= i < |catalog| ensures catalog[i].docType != ty {
            if i > 0 { assert catalog[i] == catalog[1..][i - 1]; }
          }
        }
        rest
  }

  /** Every document kind has a template in the catalog, so reopening any
      stored document finds one. */
  lemma CatalogCoversEveryType(ty: DocType)
    ensures FindByType(Templates, ty).Some?
    ensures FindByType(Templates, ty).value.docType == ty
  {
    var i := match ty
      case Resignation => 0
      case BankComplaint => 1
      case PoliceComplaint => 2
      case CollegeApplication => 3
      case OfficeApology => 4
      case LeaveLetter => 5;
    assert Templates[i].docType == ty;
  }
}

=== FILE: generator.dfy ===
/** The generator service's outcome classifier: how `generateDocument`
    turns its configuration and what the language-model SDK produced into
    either the document text or the user-facing error it throws. The SDK
    call and the prompt are outside the model; only their outcome enters. */
module Generator {
  import opened Wrappers
  import opened Text

  const CONFIG_ERROR := "System configuration error. Please contact support."
  const EMPTY_RESPONSE_ERROR := "The AI returned an empty response. Please try again."
  const BUSY_ERROR := "Server is busy. Please try again in 1 minute."
  const GENERIC_ERROR := "We couldn't generate your draft right now. Please try again."
  /** The substring that marks a rate-limit failure. */
  const RATE_LIMIT_MARK := "429"

  /** What the SDK call produced: a response whose text may be absent, or a
      thrown error whose message may be absent. */
  datatype SdkOutcome = Responded(text: Option<string>) | Threw(message: Option<string>)

  /** JavaScript falsiness of the optional response text: absent or empty. */
  predicate IsBlankText(text: Option<string>)
    ensures IsBlankText(text) ==> text.None? || Trim(text.value) == []
  {
    text.None? || text.value == ""
  }

  /** The service's catch block: the message of whatever was thrown inside
      the `try` becomes one of the two user-facing failures. */
  function CatchMessage(message: Option<string>): (m: string)
    ensures m == BUSY_ERROR || m == GENERIC_ERROR
    ensures m == BUSY_ERROR <==> message.Some? && Contains(message.value, RATE_LIMIT_MARK)
  {
    if message.Some? && Contains(message.value, RATE_LIMIT_MARK) then BUSY_ERROR
    else GENERIC_ERROR
  }

  /** The outcome of `generateDocument` as the service is written: the
      emptiness check looks at the raw text, and the trim comes after it. */
  function Classify(configured: bool, sdk: SdkOutcome): (r: Result<string, string>)
    ensures !configured ==> r == Err(CONFIG_ERROR)
    ensures r.Ok? <==> configured && sdk.Responded? && !IsBlankText(sdk.text)
    ensures r.Ok? ==> r.value == Trim(sdk.text.value)
    ensures r.Err? ==> r.error in {CONFIG_ERROR, BUSY_ERROR, GENERIC_ERROR}
  {
    if !configured then Err(CONFIG_ERROR)
    else
      match sdk
      case Responded(text) =>
        if IsBlankText(text) then Err(CatchMessage(Some(EMPTY_RESPONSE_ERROR)))
        else Ok(Trim(text.value))
      case Threw(message) => Err(CatchMessage(message))
  }

  /** The empty-response message never reaches the caller: it is thrown
      inside the `try` and replaced by the generic failure. */
  lemma EmptyResponseIsGeneric(text: Option<string>)
    requires IsBlankText(text)
    ensures Classify(true, Responded(text)) == Err(GENERIC_ERROR)
  {
    EmptyResponseNotRateLimited();
  }

  /** The empty-response message does not mention 429. */
  lemma EmptyResponseNotRateLimited()
    ensures !Contains(EMPTY_RESPONSE_ERROR, RATE_LIMIT_MARK)
  {
    EmptyResponseHasNoDigitFour();
    MissingFirstCharNotContained(EMPTY_RESPONSE_ERROR, RATE_LIMIT_MARK);
  }

  lemma EmptyResponseHasNoDigitFour()
    ensures '4' !in EMPTY_RESPONSE_ERROR
  {
    NoDigitFourInOpening();
    NoDigitFourInMiddle();
    NoDigitFourInClosing();
    assert EMPTY_RESPONSE_ERROR == "The AI returned" + " an empty response." + " Please try again.";
  }

  // The three pieces of the empty-response message, checked one at a time.
  lemma NoDigitFourInOpening() ensures '4' !in "The AI returned" {}
  lemma NoDigitFourInMiddle() ensures '4' !in " an empty response." {}
  lemma NoDigitFourInClosing() ensures '4' !in " Please try again." {}

  /** Without a configured key the SDK outcome is never consulted. */
  lemma UnconfiguredIgnoresSdk(a: SdkOutcome, b: SdkOutcome)
    ensures Classify(false, a) == Classify(false, b) == Err(CONFIG_ERROR)
  {
  }

  /** Failures: a thrown message mentioning 429 becomes the busy message,
      every other thrown error the generic one. */
  lemma ThrownErrorMapping(message: Option<string>)
    ensures message.Some? && Contains(message.value, RATE_LIMIT_MARK) ==>
              Classify(true, Threw(message)) == Err(BUSY_ERROR)
    ensures !(message.Some? && Contains(message.value, RATE_LIMIT_MARK)) ==>
              Classify(true, Threw(message)) == Err(GENERIC_ERROR)
  {
  }

  /** A successful result is already trimmed: trimming it again changes
      nothing. */
  lemma SuccessIsTrimmed(configured: bool, sdk: SdkOutcome)
    requires Classify(configured, sdk).Ok?
    ensures Trim(Classify(configured, sdk).value) == Classify(configured, sdk).value
  {
    TrimIdempotent(sdk.text.value);
  }

  /** Whitespace-only text passes the emptiness check and comes back as a
      successful empty document. */
  lemma WhitespaceOnlyYieldsEmpty(text: string)
    requires text != [] && AllWhitespace(text)
    ensures Classify(true, Responded(Some(text))) == Ok("")
  {
  }

  /** A concrete instance: a single space is accepted as a document. */
  lemma BlankResponseAccepted()
    ensures Classify(true, Responded(Some(" "))) == Ok("")
  {
    WhitespaceOnlyYieldsEmpty(" ");
  }

  /** The classifier with the emptiness check applied to the trimmed text,
      so that a success always carries a non-empty document. */
  function ClassifyNonBlank(configured: bool, sdk: SdkOutcome): (r: Result<string, string>)
    ensures r.Ok? <==> configured && sdk.Responded? && sdk.text.Some? && !AllWhitespace(sdk.text.value)
    ensures r.Ok? ==> r.value != [] && r.value == Trim(sdk.text.value)
    ensures r.Err? ==> r.error in {CONFIG_ERROR, BUSY_ERROR, GENERIC_ERROR}
  {
    if !configured then Err(CONFIG_ERROR)
    else
      match sdk
      case Responded(text) =>
        if text.None? || Trim(text.value) == "" then Err(CatchMessage(Some(EMPTY_RESPONSE_ERROR)))
        else Ok(Trim(text.value))
      case Threw(message) => Err(CatchMessage(message))
  }

  /** The corrected classifier differs from the written one only on
      whitespace-only text. */
  lemma ClassifiersAgreeOffBlank(configured: bool, sdk: SdkOutcome)
    requires !(sdk.Responded? && sdk.text.Some? && sdk.text.value != [] && AllWhitespace(sdk.text.value))
    ensures ClassifyNonBlank(configured, sdk) == Classify(configured, sdk)
  {
  }
}

=== FILE: properties.dfy ===
/** What the session transitions promise, stated across whole submissions,
    claims and identity changes. */
module SessionProperties {
  import opened Wrappers
  import opened Types
  import opened Session
  import Catalog

  // ----- Submission guards -----

  /** With no template chosen, or a generation already running, a
      submission leaves the session exactly as it was and calls nothing. */
  lemma IgnoredSubmissionChangesNothing(
    s: State, data: FormData, gen: Result<string, string>, clock: string,
    save: InsertOutcome, createdAt: string, storageConfigured: bool)
    requires s.selected.None? || s.isGenerating
    ensures SubmitGeneration(s, data, gen, clock, save, createdAt, storageConfigured) == Transition(s, [])
  {
  }

  /** A signed-in user with a loaded, empty balance gets the free-limit
      error; the generator is not called and nothing else changes. */
  lemma QuotaGuardBlocks(
    s: State, data: FormData, gen: Result<string, string>, clock: string,
    save: InsertOutcome, createdAt: string, storageConfigured: bool)
    requires s.selected.Some? && !s.isGenerating
    requires s.user.Some? && s.profile.Some? && s.profile.value.credits <= 0
    ensures var r := SubmitGeneration(s, data, gen, clock, save, createdAt, storageConfigured);
            && r.state == s.(error := Some(FREE_LIMIT_ERROR))
            && Count(r.effects, IsGeneratorCall) == 0
            && r.state.profile == s.profile && r.state.active == s.active
            && r.state.history == s.history && r.state.lastFingerprint == s.lastFingerprint
  {
  }

  /** The quota guard needs a loaded profile: a signed-in user whose profile
      has not arrived yet is let through to the generator. */
  lemma QuotaGuardNeedsProfile(s: State, data: FormData)
    requires s.selected.Some? && !s.isGenerating
    requires s.user.Some? && s.profile.None?
    requires !IsDuplicate(s, data)
    ensures BeginGeneration(s, data).effects == [CallGenerator(s.selected.value.docType, data)]
  {
  }

  /** Resubmitting the input of the result on screen is rejected with the
      duplicate error, without a generator call. */
  lemma DuplicateRejected(
    s: State, data: FormData, gen: Result<string, string>, clock: string,
    save: InsertOutcome, createdAt: string, storageConfigured: bool)
    requires s.selected.Some? && !s.isGenerating && !QuotaExhausted(s)
    requires s.active.Some? && s.lastFingerprint == Some(data)
    ensures var r := SubmitGeneration(s, data, gen, clock, save, createdAt, storageConfigured);
            && r == Transition(s.(error := Some(DUPLICATE_ERROR)), [])
            && Count(r.effects, IsGeneratorCall) == 0
  {
  }

  /** The stored fingerprint changes only through a successful generation,
      and then it becomes the submitted input. */
  lemma FingerprintOnlyOnSuccess(
    s: State, data: FormData, gen: Result<string, string>, clock: string,
    save: InsertOutcome, createdAt: string, storageConfigured: bool)
    ensures var r := SubmitGeneration(s, data, gen, clock, save, createdAt, storageConfigured);
            r.state.lastFingerprint != s.lastFingerprint ==>
              gen.Ok? && Count(r.effects, IsGeneratorCall) == 1 && r.state.lastFingerprint == Some(data)
  {
    var begun := BeginGeneration(s, data);
    if begun.effects != [] {
      var done := CompleteGeneration(begun.state, data, gen, clock, save, createdAt, storageConfigured);
      CountAppend(begun.effects, done.effects, IsGeneratorCall);
    }
  }

  /** Choosing a template clears the result on screen, so no input counts
      as a duplicate afterwards: the next submission reaches the generator
      unless the quota guard stops it. */
  lemma SelectTemplateRearmsGuard(s: State, t: Template, data: FormData)
    requires !s.isGenerating && !QuotaExhausted(s)
    ensures !IsDuplicate(SelectTemplate(s, t), data)
    ensures BeginGeneration(SelectTemplate(s, t), data).effects == [CallGenerator(t.docType, data)]
  {
  }

  /** After a success the same input is refused and a different one is
      accepted (while credits remain). */
  lemma DuplicateScenario(
    s: State, a: FormData, b: FormData, text: string, clock: string,
    save: InsertOutcome, createdAt: string, storageConfigured: bool)
    requires s.selected.Some? && !s.isGenerating && !QuotaExhausted(s) && !IsDuplicate(s, a)
    requires a != b
    ensures var after := SubmitGeneration(s, a, Ok(text), clock, save, createdAt, storageConfigured).state;
            && IsDuplicate(after, a)
            && (!QuotaExhausted(after) ==>
                  && BeginGeneration(after, a).effects == []
                  && BeginGeneration(after, a).state.error == Some(DUPLICATE_ERROR))
            && (!QuotaExhausted(after) ==>
                  BeginGeneration(after, b).effects == [CallGenerator(s.selected.value.docType, b)])
  {
  }

  // ----- Completion -----

  /** A failed generation charges nothing and stores nothing: credits, the
      result on screen, the history and the fingerprint are untouched, the
      error shows the failure message (or the generic one when the message
      is empty) and the pending flag is cleared. */
  lemma FailureChargesNothing(
    s: State, data: FormData, message: string, clock: string,
    save: InsertOutcome, createdAt: string, storageConfigured: bool)
    requires !s.isGenerating
    ensures var r := SubmitGeneration(s, data, Err(message), clock, save, createdAt, storageConfigured);
            && r.state.profile == s.profile && r.state.active == s.active
            && r.state.history == s.history && r.state.lastFingerprint == s.lastFingerprint
            && !r.state.isGenerating
            && Count(r.effects, IsDocumentInsert) == 0 && Count(r.effects, IsCreditUpdate) == 0
            && (Count(r.effects, IsGeneratorCall) == 1 ==>
                  r.state.error == Some(if message == "" then GEN_FAILURE_ERROR else message))
  {
    var begun := BeginGeneration(s, data);
    if begun.effects != [] {
      var done := CompleteGeneration(begun.state, data, Err(message), clock, save, createdAt, storageConfigured);
      CountAppend(begun.effects, done.effects, IsDocumentInsert);
      CountAppend(begun.effects, done.effects, IsCreditUpdate);
      CountAppend(begun.effects, done.effects, IsGeneratorCall);
    }
  }

  /** A successful generation by a signed-in user writes the balance
      `max(0, c - 1)`, where a missing profile counts as 0; the write
      happens whether or not the document insert succeeded. With a loaded
      profile the guard guarantees a positive balance, so it drops by
      exactly one. */
  lemma SuccessDebitsOneCredit(
    s: State, data: FormData, text: string, clock: string,
    save: InsertOutcome, createdAt: string)
    requires s.selected.Some? && !s.isGenerating && !QuotaExhausted(s) && !IsDuplicate(s, data)
    requires s.user.Some?
    ensures var r := SubmitGeneration(s, data, Ok(text), clock, save, createdAt, true);
            && UpdateCredits(s.user.value.id, Debit(CreditsOrZero(s))) in r.effects
            && Count(r.effects, IsCreditUpdate) == 1
            && (s.profile.None? ==> UpdateCredits(s.user.value.id, 0) in r.effects && r.state.profile.None?)
            && (s.profile.Some? ==>
                  && s.profile.value.credits >= 1
                  && r.state.profile == Some(s.profile.value.(credits := s.profile.value.credits - 1)))
  {
    var begun := BeginGeneration(s, data);
    var done := CompleteGeneration(begun.state, data, Ok(text), clock, save, createdAt, true);
    assert done.effects[1] == UpdateCredits(s.user.value.id, Debit(CreditsOrZero(s)));
    CountAppend(begun.effects, done.effects, IsCreditUpdate);
  }

  /** The id of a fresh document is the storage id only when a signed-in
      user's insert succeeded, and the clock string otherwise; it joins the
      history only when a user is signed in. */
  lemma SuccessDocumentPlacement(
    s: State, data: FormData, text: string, clock: string,
    save: InsertOutcome, createdAt: string, storageConfigured: bool)
    requires s.selected.Some? && !s.isGenerating && !QuotaExhausted(s) && !IsDuplicate(s, data)
    ensures var r := SubmitGeneration(s, data, Ok(text), clock, save, createdAt, storageConfigured);
            && r.state.active == Some(Doc(
                 if s.user.Some? && storageConfigured && save.Some? then save.value else clock,
                 s.selected.value.docType, text, None, createdAt))
            && (s.user.Some? ==> r.state.history == [r.state.active.value] + s.history)
            && (s.user.None? ==> r.state.history == s.history && r.effects == [CallGenerator(s.selected.value.docType, data)])
            && r.state.error.None?
  {
  }

  /** Under the id-shape hypothesis, a document a signed-in user saved is
      never offered to the claim step again. */
  lemma SavedDocumentNotClaimable(
    s: State, data: FormData, text: string, clock: string, id: string, createdAt: string)
    requires s.selected.Some? && !s.isGenerating && !QuotaExhausted(s) && !IsDuplicate(s, data)
    requires s.user.Some? && StorageIdShape(id)
    ensures var r := SubmitGeneration(s, data, Ok(text), clock, Some(id), createdAt, true);
            !Claimable(r.state.active.value)
  {
  }

  // ----- Claim -----

  /** Claiming twice: after a successful claim the document on screen
      carries a storage id, so replaying the claim with it does nothing.
      Across both calls there is one insert and one usage-log entry. */
  lemma ClaimTwicePersistsOnce(
    s: State, userId: string, doc: Doc, id: string, again: InsertOutcome)
    requires Claimable(doc) && StorageIdShape(id)
    ensures var first := ClaimDocument(s, userId, doc, true, Some(id));
            var second := ClaimDocument(first.state, userId, first.state.active.value, true, again);
            && second.state == first.state
            && Count(first.effects + second.effects, IsDocumentInsert) == 1
            && Count(first.effects + second.effects, IsUsageLog) == 1
            && LogUsage(userId, CLAIM_ACTION, 1, id) in first.effects
  {
    var first := ClaimDocument(s, userId, doc, true, Some(id));
    var second := ClaimDocument(first.state, userId, first.state.active.value, true, again);
    assert second.effects == [];
    assert first.effects + second.effects == first.effects;
  }

  // ----- Identity -----

  /** Signing out resets profile, history, result on screen and template,
      whatever they held: two sessions that differ only in those end up
      identical. */
  lemma SignOutForgetsUser(s: State, t: State, prevUser: Option<User>, otherPrev: Option<User>)
    requires s.(profile := t.profile, history := t.history, active := t.active, selected := t.selected, user := t.user) == t
    ensures AuthTransition(s, prevUser, None) == AuthTransition(t, otherPrev, None)
    ensures AuthTransition(s, prevUser, None).state.history == []
  {
  }

  /** After signing out, signing in again has nothing to claim. */
  lemma SignOutThenSignInClaimsNothing(s: State, p: Option<User>, u: User)
    ensures var out := AuthTransition(s, p, None).state;
            Count(AuthTransition(out, None, Some(u)).effects, IsClaimAttempt) == 0
  {
  }

  /** A repeated sign-in event (a token refresh, say) never asks for a claim. */
  lemma ReentrantSignInClaimsNothing(s: State, prev: User, u: User)
    ensures AuthTransition(s, Some(prev), Some(u)).effects == [FetchProfile(u.id)]
  {
  }

  /** Signing out keeps the fingerprint of the last success and the
      submitted form. Once another user signs in and opens a stored
      document, resubmitting the previous user's input, which the form is
      refilled with, is refused as a duplicate. */
  lemma PreviousUsersInputStillDuplicate(s: State, a: User, b: User, row: Profile, doc: Doc, x: FormData)
    requires s.lastFingerprint == Some(x) && !s.isGenerating && row.credits > 0
    ensures var out := AuthTransition(s, Some(a), None).state;
            var back := ProfileFetched(AuthTransition(out, None, Some(b)).state, Some(row));
            var reopened := OpenFromHistory(back, doc, Catalog.Templates);
            && reopened.user == Some(b)
            && reopened.formData == s.formData
            && BeginGeneration(reopened, x) == Transition(reopened.(error := Some(DUPLICATE_ERROR)), [])
  {
    Catalog.CatalogCoversEveryType(doc.docType);
  }

  // ----- Scenario -----

  /** A guest picks the leave application, submits a form and gets text
      back; the document carries the clock id. The guest then signs in: one
      claim is requested, and a successful claim puts exactly one stored
      copy of that text in the history and logs one credit for it. */
  lemma GuestClaimScenario(text: string, clock: string, id: string, u: User, createdAt: string)
    requires TransientIdShape(clock) && StorageIdShape(id)
    ensures
      var data := [("name", "Asha"), ("type", "Sick"), ("startDate", "2025-01-01"),
                   ("endDate", "2025-01-02"), ("reason", "fever")];
      var s1 := SelectTemplate(Initial, Catalog.Templates[5]);
      var t2 := SubmitGeneration(s1, data, Ok(text), clock, None, createdAt, true);
      var doc := Doc(clock, LeaveLetter, text, None, createdAt);
      var t3 := AuthTransition(t2.state, None, Some(u));
      var t4 := ClaimDocument(t3.state, u.id, doc, true, Some(id));
      && t2.state.active == Some(doc) && t2.state.history == []
      && t2.effects == [CallGenerator(LeaveLetter, data)]
      && t3.effects == [FetchProfile(u.id), ClaimAttempt(u.id, doc)]
      && t4.state.history == [doc.(id := id)]
      && t4.state.active == Some(doc.(id := id))
      && Count(t2.effects + t3.effects + t4.effects, IsDocumentInsert) == 1
      && Count(t2.effects + t3.effects + t4.effects, IsUsageLog) == 1
      && LogUsage(u.id, CLAIM_ACTION, 1, id) in t4.effects
  {
    var data := [("name", "Asha"), ("type", "Sick"), ("startDate", "2025-01-01"),
                 ("endDate", "2025-01-02"), ("reason", "fever")];
    var s1 := SelectTemplate(Initial, Catalog.Templates[5]);
    var t2 := SubmitGeneration(s1, data, Ok(text), clock, None, createdAt, true);
    var doc := Doc(clock, LeaveLetter, text, None, createdAt);
    var t3 := AuthTransition(t2.state, None, Some(u));
    var t4 := ClaimDocument(t3.state, u.id, doc, true, Some(id));
    assert Catalog.Templates[5].docType == LeaveLetter;
    assert s1.selected == Some(Catalog.Templates[5]) && s1.user.None? && s1.active.None?;
    SuccessDocumentPlacement(s1, data, text, clock, None, createdAt, true);
    assert t2.state.active == Some(doc) && t2.state.history == [];
    assert t3.state.active == Some(doc) && t3.state.history == [];
    ClockIdsClaimable(doc);
    assert t4.effects == [InsertDocument(u.id, LeaveLetter, t3.state.formData, text),
                          LogUsage(u.id, CLAIM_ACTION, 1, id), FetchProfile(u.id)];
    CountAppend(t2.effects, t3.effects, IsDocumentInsert);
    CountAppend(t2.effects + t3.effects, t4.effects, IsDocumentInsert);
    CountAppend(t2.effects, t3.effects, IsUsageLog);
    CountAppend(t2.effects + t3.effects, t4.effects, IsUsageLog);
  }
}

=== FILE: session.dfy ===
/** The session and billing workflow of the front end as an explicit state
    machine. The session is one immutable record; every user action or
    identity event is a pure transition producing the next record together
    with the collaborator calls it issues. What a collaborator answers (the
    generator's outcome, an insert's id, the clock) is a parameter. */
module Session {
  import opened Wrappers
  import opened Types
  import Catalog

  const FREE_LIMIT_ERROR := "You\U{2019}ve used your free drafts. Please top up your account to continue."
  const GEN_FAILURE_ERROR := "We couldn\U{2019}t generate your document. Don't worry, no credits were used. Please try again."
  const DUPLICATE_ERROR := "This document is already generated with these details."
  /** The usage-log action recorded for a claimed guest document. */
  const CLAIM_ACTION := "claim_guest_document"
  /** Longest id the claim step still treats as unsaved. */
  const TRANSIENT_ID_MAX := 15

  /** The whole session. `lastFingerprint` is the serialized form of the
      last successfully generated input (None before the first success);
      `formData` is the last submitted form, used to refill it and as the
      input data of a claimed document. */
  datatype State = State(
    user: Option<User>,
    profile: Option<Profile>,
    selected: Option<Template>,
    active: Option<Doc>,
    history: seq<Doc>,
    formData: Option<FormData>,
    lastFingerprint: Option<FormData>,
    isGenerating: bool,
    error: Option<string>,
    showLoginPrompt: bool)

  /** The session of a fresh page load. */
  const Initial := State(None, None, None, None, [], None, None, false, None, false)

  /** A call into a collaborator issued by a transition. */
  datatype Effect =
    | CallGenerator(docType: DocType, data: FormData)
    | InsertDocument(userId: string, docType: DocType, inputData: Option<FormData>, text: string)
    | UpdateCredits(userId: string, credits: int)
    | LogUsage(userId: string, action: string, creditsUsed: int, docId: string)
    | FetchProfile(userId: string)
    | ClaimAttempt(userId: string, doc: Doc)
    | CopyToClipboard(text: string)
    | Print

  datatype Transition = Transition(state: State, effects: seq<Effect>)

  predicate IsGeneratorCall(e: Effect) { e.CallGenerator? }
  predicate IsDocumentInsert(e: Effect) { e.InsertDocument? }
  predicate IsCreditUpdate(e: Effect) { e.UpdateCredits? }
  predicate IsUsageLog(e: Effect) { e.LogUsage? }
  predicate IsClaimAttempt(e: Effect) { e.ClaimAttempt? }

  /** How many of `effects` are of the kind `p` picks out. */
  function Count(effects: seq<Effect>, p: Effect -> bool): (n: nat)
    ensures n <= |effects|
    ensures n == 0 <==> forall i :: 0 <= i < |effects| ==> !p(effects[i])
  {
    if effects == [] then 0
    else (if p(effects[0]) then 1 else 0) + Count(effects[1..], p)
  }

  /** Counting distributes over concatenation. */
  lemma {:induction false} CountAppend(a: seq<Effect>, b: seq<Effect>, p: Effect -> bool)
    ensures Count(a + b, p) == Count(a, p) + Count(b, p)
  {
    if a == [] {
      assert a + b == b;
    } else {
      assert (a + b)[1..] == a[1..] + b;
      CountAppend(a[1..], b, p);
    }
  }

  /** How the session states an insert's answer: the id storage assigned, or
      None when the insert reported an error. */
  type InsertOutcome = Option<string>

  // ----- Id shapes -----

  /** The claim step accepts a document only while its id is this short. */
  predicate Claimable(doc: Doc) {
    |doc.id| <= TRANSIENT_ID_MAX
  }

  function Pow10(k: nat): nat {
    if k == 0 then 1 else 10 * Pow10(k - 1)
  }

  /** The decimal numeral of `n`, as `Number.prototype.toString` writes a
      non-negative integer below 10^21: digits only, no leading zero. */
  function Decimal(n: nat): (r: string)
    ensures |r| >= 1
    ensures forall i :: 0 <= i < |r| ==> '0' <= r[i] <= '9'
    ensures n > 0 ==> r[0] != '0'
    decreases n
  {
    var digit := (('0' as int) + n % 10) as char;
    if n < 10 then [digit] else Decimal(n / 10) + [digit]
  }

  /** The value of a string of decimal digits, most significant first. */
  function DigitsValue(s: string): nat
    requires forall i :: 0 <= i < |s| ==> '0' <= s[i] <= '9'
    decreases |s|
  {
    if s == [] then 0 else DigitsValue(s[..|s| - 1]) * 10 + ((s[|s| - 1] as int) - ('0' as int))
  }

  /** The numeral `Decimal` writes reads back as the number itself. */
  lemma {:induction false} DecimalRoundTrip(n: nat)
    ensures DigitsValue(Decimal(n)) == n
    decreases n
  {
    if n >= 10 {
      DecimalRoundTrip(n / 10);
      assert Decimal(n)[..|Decimal(n)| - 1] == Decimal(n / 10);
    }
  }

  lemma {:induction false} Pow10AtLeastTen(k: nat)
    requires k >= 1
    ensures Pow10(k) >= 10
    decreases k
  {
    if k > 1 {
      Pow10AtLeastTen(k - 1);
    }
  }

  /** For k >= 1, a number is written with at most k digits exactly when
      it is below 10^k. */
  lemma {:induction false} DecimalLength(n: nat, k: nat)
    requires k >= 1
    ensures |Decimal(n)| <= k <==> n < Pow10(k)
    decreases k
  {
    Pow10AtLeastTen(k);
    if n >= 10 && k > 1 {
      DecimalLength(n / 10, k - 1);
      assert n == 10 * (n / 10) + n % 10;
      assert n < Pow10(k) <==> n / 10 < Pow10(k - 1);
    }
  }

  /** Hypothesis on the clock: a transient id is `Date.now()` in decimal, a
      count of milliseconds below 10^15 (true until the year 33658). */
  ghost predicate TransientIdShape(id: string) {
    exists n: nat :: n < Pow10(15) && id == Decimal(n)
  }

  /** Hypothesis on storage: the ids it assigns are UUIDs in their
      canonical text form, hex groups of 8, 4, 4, 4 and 12 digits joined by
      hyphens. */
  predicate StorageIdShape(id: string) {
    && |id| == 36
    && forall i :: 0 <= i < |id| ==>
         if i == 8 || i == 13 || i == 18 || i == 23 then id[i] == '-' else IsHexDigit(id[i])
  }

  predicate IsHexDigit(c: char) {
    '0' <= c <= '9' || 'a' <= c <= 'f' || 'A' <= c <= 'F'
  }

  /** A clock id passes the claim's length test: 15 digits are enough for
      any clock reading below 10^15. */
  lemma ClockIdsClaimable(doc: Doc)
    requires TransientIdShape(doc.id)
    ensures Claimable(doc)
  {
    var n: nat :| n < Pow10(15) && doc.id == Decimal(n);
    DecimalLength(n, 15);
  }

  /** A storage id fails the claim's length test. */
  lemma StorageIdsNotClaimable(doc: Doc)
    requires StorageIdShape(doc.id)
    ensures !Claimable(doc)
  {
  }

  // ----- Guards -----

  /** A signed-in user whose loaded profile has no credits left. */
  predicate QuotaExhausted(s: State)
    ensures s.user.None? || s.profile.None? ==> !QuotaExhausted(s)
    ensures QuotaExhausted(s) ==> Debit(CreditsOrZero(s)) == 0
  {
    s.user.Some? && s.profile.Some? && s.profile.value.credits <= 0
  }

  /** A result is on screen and `data` is the input that produced the last
      success. */
  predicate IsDuplicate(s: State, data: FormData) {
    s.active.Some? && s.lastFingerprint == Some(data)
  }

  /** The balance the debit starts from: a missing profile counts as 0. */
  function CreditsOrZero(s: State): int {
    if s.profile.Some? then s.profile.value.credits else 0
  }

  /** The balance written after a successful generation. */
  function Debit(credits: int): (r: int)
    ensures r >= 0
    ensures credits > 0 ==> r == credits - 1
    ensures credits <= 0 ==> r == 0
  {
    if credits - 1 > 0 then credits - 1 else 0
  }

  // ----- Transitions -----

  /** Choosing a template from the catalog: the previous result, its form
      and any error are dropped. */
  function SelectTemplate(s: State, t: Template): (r: State)
    ensures r.selected == Some(t)
    ensures r.active.None? && r.formData.None? && r.error.None?
    ensures r.(selected := s.selected, active := s.active, formData := s.formData, error := s.error) == s
  {
    s.(selected := Some(t), active := None, formData := None, error := None)
  }

  /** The guard half of a form submission. It either leaves the session as
      it is, reports the quota or duplicate error, or starts a generation by
      calling the generator. */
  function BeginGeneration(s: State, data: FormData): (r: Transition)
    ensures s.selected.None? || s.isGenerating ==> r == Transition(s, [])
    ensures r.effects != [] <==>
              s.selected.Some? && !s.isGenerating && !QuotaExhausted(s) && !IsDuplicate(s, data)
    ensures r.effects != [] ==>
              && r.effects == [CallGenerator(s.selected.value.docType, data)]
              && r.state == s.(isGenerating := true, error := None, formData := Some(data))
    ensures s.selected.Some? && !s.isGenerating && QuotaExhausted(s) ==>
              r == Transition(s.(error := Some(FREE_LIMIT_ERROR)), [])
    ensures s.selected.Some? && !s.isGenerating && !QuotaExhausted(s) && IsDuplicate(s, data) ==>
              r == Transition(s.(error := Some(DUPLICATE_ERROR)), [])
  {
    if s.selected.None? || s.isGenerating then Transition(s, [])
    else if QuotaExhausted(s) then Transition(s.(error := Some(FREE_LIMIT_ERROR)), [])
    else if IsDuplicate(s, data) then Transition(s.(error := Some(DUPLICATE_ERROR)), [])
    else
      Transition(
        s.(isGenerating := true, error := None, formData := Some(data)),
        [CallGenerator(s.selected.value.docType, data)])
  }

  /** The completion half of a form submission, once the generator has
      answered. `gen` is the generator's text or the message it threw;
      `clock` is the transient id; `save` is the document insert's answer,
      consulted only for a signed-in user with storage configured. */
  function CompleteGeneration(
    s: State, data: FormData, gen: Result<string, string>, clock: string,
    save: InsertOutcome, createdAt: string, storageConfigured: bool): (r: Transition)
    requires s.selected.Some?
    ensures !r.state.isGenerating
    ensures gen.Err? ==> r.effects == []
    ensures gen.Err? ==> r.state.error == Some(if gen.error == "" then GEN_FAILURE_ERROR else gen.error)
    ensures gen.Err? ==> r.state.(error := s.error, isGenerating := s.isGenerating) == s
    ensures gen.Ok? ==>
              && r.state.active.Some?
              && r.state.active.value.text == gen.value
              && r.state.active.value.docType == s.selected.value.docType
              && r.state.lastFingerprint == Some(data)
              && r.state.history == (if s.user.Some? then [r.state.active.value] + s.history else s.history)
    ensures gen.Ok? ==>
              r.state.active.value.id ==
                (if s.user.Some? && storageConfigured && save.Some? then save.value else clock)
    ensures gen.Ok? && s.user.Some? && storageConfigured ==>
              && r.effects == [InsertDocument(s.user.value.id, s.selected.value.docType, Some(data), gen.value),
                               UpdateCredits(s.user.value.id, Debit(CreditsOrZero(s)))]
              && r.state.profile == (if s.profile.Some? then Some(s.profile.value.(credits := Debit(CreditsOrZero(s))))
                                     else None)
    ensures gen.Ok? && !(s.user.Some? && storageConfigured) ==>
              r.effects == [] && r.state.profile == s.profile
    ensures gen.Ok? ==>
              r.state.(profile := s.profile, lastFingerprint := s.lastFingerprint, active := s.active,
                       history := s.history, isGenerating := s.isGenerating) == s
  {
    match gen
    case Err(message) =>
      Transition(s.(error := Some(if message == "" then GEN_FAILURE_ERROR else message), isGenerating := false), [])
    case Ok(text) =>
      var persisting := s.user.Some? && storageConfigured;
      var id := if persisting && save.Some? then save.value else clock;
      var credits := Debit(CreditsOrZero(s));
      var doc := Doc(id, s.selected.value.docType, text, None, createdAt);
      var profile := if persisting && s.profile.Some? then Some(s.profile.value.(credits := credits)) else s.profile;
      var effects :=
        if persisting then
          [InsertDocument(s.user.value.id, s.selected.value.docType, Some(data), text),
           UpdateCredits(s.user.value.id, credits)]
        else [];
      Transition(
        s.(profile := profile, lastFingerprint := Some(data), active := Some(doc),
           history := if s.user.Some? then [doc] + s.history else s.history,
           isGenerating := false),
        effects)
  }

  /** A whole submission: the guard, then, if it called the generator, the
      completion with the generator's answer. */
  function SubmitGeneration(
    s: State, data: FormData, gen: Result<string, string>, clock: string,
    save: InsertOutcome, createdAt: string, storageConfigured: bool): (r: Transition)
    ensures !s.isGenerating ==> !r.state.isGenerating
  {
    var begun := BeginGeneration(s, data);
    if begun.effects == [] then begun
    else
      var done := CompleteGeneration(begun.state, data, gen, clock, save, createdAt, storageConfigured);
      Transition(done.state, begun.effects + done.effects)
  }

  /** Persisting a document a guest generated, under the user who just
      signed in. Only a document whose id is still transient is inserted; on
      success its id becomes the stored one, it joins the history and one
      credit is logged against it. A failed insert changes nothing. */
  function ClaimDocument(
    s: State, userId: string, doc: Doc, storageConfigured: bool, insert: InsertOutcome): (r: Transition)
    ensures !storageConfigured || !Claimable(doc) ==> r == Transition(s, [])
    ensures storageConfigured && Claimable(doc) && insert.None? ==>
              r == Transition(s, [InsertDocument(userId, doc.docType, s.formData, doc.text)])
    ensures storageConfigured && Claimable(doc) && insert.Some? ==>
              && r.state.active == Some(doc.(id := insert.value))
              && r.state.history == [doc.(id := insert.value)] + s.history
              && r.state.(active := s.active, history := s.history) == s
              && r.effects == [InsertDocument(userId, doc.docType, s.formData, doc.text),
                               LogUsage(userId, CLAIM_ACTION, 1, insert.value),
                               FetchProfile(userId)]
    ensures Count(r.effects, IsDocumentInsert) <= 1 && Count(r.effects, IsUsageLog) <= 1
    ensures Count(r.effects, IsCreditUpdate) == 0
  {
    if !storageConfigured || !Claimable(doc) then Transition(s, [])
    else
      var insertion := InsertDocument(userId, doc.docType, s.formData, doc.text);
      match insert
      case None => Transition(s, [insertion])
      case Some(id) =>
        var claimed := doc.(id := id);
        Transition(
          s.(active := Some(claimed), history := [claimed] + s.history),
          [insertion, LogUsage(userId, CLAIM_ACTION, 1, id), FetchProfile(userId)])
  }

  /** An identity event: `prevUser` is the identity before the event,
      `newUser` the one the event reports. Signing in fetches the profile and,
      coming from a guest session with a document on screen, asks for that
      document to be claimed. Signing out resets everything tied to the
      previous user. */
  function AuthTransition(s: State, prevUser: Option<User>, newUser: Option<User>): (r: Transition)
    ensures r.state.user == newUser
    ensures newUser.None? ==>
              && r.state.profile.None? && r.state.history == []
              && r.state.active.None? && r.state.selected.None?
              && r.effects == []
    ensures newUser.None? ==>
              r.state.(user := s.user, profile := s.profile, history := s.history,
                       active := s.active, selected := s.selected) == s
    ensures newUser.Some? ==>
              && r.state == s.(user := newUser)
              && |r.effects| >= 1 && r.effects[0] == FetchProfile(newUser.value.id)
    ensures newUser.Some? ==>
              Count(r.effects, IsClaimAttempt) == if prevUser.None? && s.active.Some? then 1 else 0
    ensures forall e :: e in r.effects && e.ClaimAttempt? ==>
              newUser.Some? && e == ClaimAttempt(newUser.value.id, s.active.value)
    ensures Count(r.effects, IsDocumentInsert) == 0 && Count(r.effects, IsUsageLog) == 0
    ensures Count(r.effects, IsCreditUpdate) == 0
  {
    match newUser
    case Some(u) =>
      var claim := if prevUser.None? && s.active.Some? then [ClaimAttempt(u.id, s.active.value)] else [];
      Transition(s.(user := newUser), [FetchProfile(u.id)] + claim)
    case None =>
      Transition(s.(user := None, profile := None, history := [], active := None, selected := None), [])
  }

  /** The session lookup on page load (and again whenever its effect is
      re-run): it only records the identity found and fetches its profile.
      It neither resets the session nor claims anything. */
  function RestoreSession(s: State, found: Option<User>): (r: Transition)
    ensures r.state == s.(user := found)
    ensures found.Some? ==> r.effects == [FetchProfile(found.value.id)]
    ensures found.None? ==> r.effects == []
    ensures Count(r.effects, IsClaimAttempt) == 0
  {
    if found.Some? then Transition(s.(user := found), [FetchProfile(found.value.id)])
    else Transition(s.(user := found), [])
  }

  /** A profile fetch answered: the profile is replaced when a row came back. */
  function ProfileFetched(s: State, row: Option<Profile>): (r: State)
    ensures row.Some? ==> r.profile == row
    ensures row.None? ==> r == s
    ensures r.(profile := s.profile) == s
  {
    if row.Some? then s.(profile := row) else s
  }

  /** Opening a stored document from the history list: it becomes the
      result on screen, under the catalog template of its kind (or none). */
  function OpenFromHistory(s: State, doc: Doc, catalog: seq<Template>): (r: State)
    ensures r.active == Some(doc)
    ensures r.selected.Some? ==> r.selected.value in catalog && r.selected.value.docType == doc.docType
    ensures r.selected.None? <==> forall i :: 0 <= i < |catalog| ==> catalog[i].docType != doc.docType
    ensures r.(active := s.active, selected := s.selected) == s
  {
    s.(active := Some(doc), selected := Catalog.FindByType(catalog, doc.docType))
  }

  /** The copy button: guests are asked to sign in instead. */
  function CopyText(s: State): (r: Transition)
    ensures s.user.None? ==> r == Transition(s.(showLoginPrompt := true), [])
    ensures s.user.Some? ==> r.state == s
    ensures s.user.Some? && s.active.Some? ==> r.effects == [CopyToClipboard(s.active.value.text)]
    ensures s.active.None? ==> r.effects == []
  {
    if s.user.None? then Transition(s.(showLoginPrompt := true), [])
    else if s.active.None? then Transition(s, [])
    else Transition(s, [CopyToClipboard(s.active.value.text)])
  }

  /** The print button: guests are asked to sign in instead. */
  function DownloadPdf(s: State): (r: Transition)
    ensures s.user.None? ==> r == Transition(s.(showLoginPrompt := true), [])
    ensures s.user.Some? ==> r == Transition(s, [Print])
  {
    if s.user.None? then Transition(s.(showLoginPrompt := true), [])
    else Transition(s, [Print])
  }
}

=== FILE: text.dfy ===
/** The string operations the generator service relies on: ECMAScript's
    `String.prototype.trim` and `String.prototype.includes`. */
module Text {

  /** The characters `trim` removes: the WhiteSpace and LineTerminator code
      points of ECMA-262 (sections 12.2 and 12.3), including the Unicode
      space separators. */
  predicate IsWhitespace(c: char) {
    || c == '\t' || c == '\n' || c == '\U{000B}' || c == '\U{000C}' || c == '\r'
    || c == ' ' || c == '\U{00A0}' || c == '\U{1680}'
    || ('\U{2000}' <= c <= '\U{200A}')
    || c == '\U{2028}' || c == '\U{2029}' || c == '\U{202F}' || c == '\U{205F}'
    || c == '\U{3000}' || c == '\U{FEFF}'
  }

  predicate AllWhitespace(s: string) {
    forall i :: 0 <= i < |s| ==> IsWhitespace(s[i])
  }

  /** Whitespace followed by whitespace is whitespace. */
  lemma AllWhitespaceConcat(a: string, b: string)
    requires AllWhitespace(a) && AllWhitespace(b)
    ensures AllWhitespace(a + b)
  {
    forall i | 0 <= i < |a + b| ensures IsWhitespace((a + b)[i]) {
      if i >= |a| { assert (a + b)[i] == b[i - |a|]; }
    }
  }

  /** Neither the first nor the last character is whitespace. */
  predicate NoEdgeWhitespace(s: string) {
    |s| > 0 ==> !IsWhitespace(s[0]) && !IsWhitespace(s[|s| - 1])
  }

  /** `s` with its leading whitespace removed. */
  function TrimStart(s: string): (r: string)
    ensures |r| <= |s| && r == s[|s| - |r|..]
    ensures AllWhitespace(s[..|s| - |r|])
    ensures |r| > 0 ==> !IsWhitespace(r[0])
    decreases |s|
  {
    if |s| > 0 && IsWhitespace(s[0]) then
      var r := TrimStart(s[1..]);
      assert s[..|s| - |r|] == [s[0]] + s[1..][..|s| - 1 - |r|];
      r
    else s
  }

  /** `s` with its trailing whitespace removed. */
  function TrimEnd(s: string): (r: string)
    ensures |r| <= |s| && r == s[..|r|]
    ensures AllWhitespace(s[|r|..])
    ensures |r| > 0 ==> !IsWhitespace(r[|r| - 1])
    decreases |s|
  {
    if |s| > 0 && IsWhitespace(s[|s| - 1]) then
      var r := TrimEnd(s[..|s| - 1]);
      assert s[|r|..] == s[..|s| - 1][|r|..] + [s[|s| - 1]];
      r
    else s
  }

  /** `s` is whitespace, then `r` starting at index `k`, then whitespace. */
  predicate SplitsAt(r: string, s: string, k: int) {
    && 0 <= k <= |s| - |r|
    && s[k..k + |r|] == r
    && AllWhitespace(s[..k])
    && AllWhitespace(s[k + |r|..])
  }

  /** `r` is what is left of `s` once whitespace is stripped from both ends:
      `s` splits into whitespace, `r`, whitespace, and `r` has no whitespace
      at either end. This is the reference definition `Trim` is checked
      against. */
  ghost predicate IsTrimOf(r: string, s: string) {
    NoEdgeWhitespace(r) && exists k :: SplitsAt(r, s, k)
  }

  /** ECMAScript's `trim`: leading and trailing whitespace removed. */
  function Trim(s: string): (r: string)
    ensures IsTrimOf(r, s)
    ensures r == [] <==> AllWhitespace(s)
  {
    TrimSplits(s);
    TrimEnd(TrimStart(s))
  }

  /** The two passes of `Trim` cut `s` into leading whitespace, the kept
      middle and trailing whitespace. */
  lemma TrimSplits(s: string)
    ensures IsTrimOf(TrimEnd(TrimStart(s)), s)
    ensures TrimEnd(TrimStart(s)) == [] <==> AllWhitespace(s)
  {
    var t := TrimStart(s);
    var r := TrimEnd(t);
    TrimPassesSplit(s, t, r);
  }

  /** A suffix `t` of `s` after leading whitespace, cut to a prefix `r` of
      `t` before trailing whitespace, is a trim of `s`. */
  lemma TrimPassesSplit(s: string, t: string, r: string)
    requires |t| <= |s| && t == s[|s| - |t|..] && AllWhitespace(s[..|s| - |t|])
    requires |t| > 0 ==> !IsWhitespace(t[0])
    requires |r| <= |t| && r == t[..|r|] && AllWhitespace(t[|r|..])
    requires |r| > 0 ==> !IsWhitespace(r[|r| - 1])
    ensures IsTrimOf(r, s)
    ensures r == [] <==> AllWhitespace(s)
  {
    var k := |s| - |t|;
    assert t == t[..|r|] + t[|r|..];
    assert s[k..k + |r|] == r;
    assert s[k + |r|..] == t[|r|..];
    assert SplitsAt(r, s, k);
    if r == [] {
      assert s == s[..k] + s[k..];
      AllWhitespaceConcat(s[..k], s[k..]);
    } else {
      assert r[0] == t[0];
      assert s[k] == r[0];
    }
  }

  /** Leading whitespace in front of a string that does not start with
      whitespace is exactly what `TrimStart` removes. */
  lemma {:induction false} TrimStartSkips(a: string, t: string)
    requires AllWhitespace(a)
    requires |t| > 0 ==> !IsWhitespace(t[0])
    ensures TrimStart(a + t) == t
    decreases |a|
  {
    if |a| > 0 {
      assert (a + t)[1..] == a[1..] + t;
      TrimStartSkips(a[1..], t);
    } else {
      assert a + t == t;
    }
  }

  /** Trailing whitespace behind a string that does not end with whitespace
      is exactly what `TrimEnd` removes. */
  lemma {:induction false} TrimEndSkips(t: string, b: string)
    requires AllWhitespace(b)
    requires |t| > 0 ==> !IsWhitespace(t[|t| - 1])
    ensures TrimEnd(t + b) == t
    decreases |b|
  {
    if |b| > 0 {
      assert (t + b)[..|t + b| - 1] == t + b[..|b| - 1];
      TrimEndSkips(t, b[..|b| - 1]);
    } else {
      assert t + b == t;
    }
  }

  /** `Trim` agrees with its reference definition: any string that `IsTrimOf`
      describes is the one `Trim` returns. */
  lemma TrimUnique(r: string, s: string)
    requires IsTrimOf(r, s)
    ensures Trim(s) == r
  {
    var k :| SplitsAt(r, s, k);
    var a, b := s[..k], s[k + |r|..];
    assert s == a + r + b;
    if r == [] {
      assert AllWhitespace(s) by {
        forall i | 0 <= i < |s| ensures IsWhitespace(s[i]) {
          if i < k { assert s[i] == a[i]; } else { assert s[i] == b[i - k]; }
        }
      }
    } else {
      assert s == a + (r + b);
      TrimStartSkips(a, r + b);
      TrimEndSkips(r, b);
    }
  }

  /** Trimming twice changes nothing. */
  lemma TrimIdempotent(s: string)
    ensures Trim(Trim(s)) == Trim(s)
  {
    var r := Trim(s);
    assert SplitsAt(r, r, 0);
    TrimUnique(r, r);
  }

  /** `s` begins with `p`. */
  predicate StartsWith(s: string, p: string) {
    |p| <= |s| && s[..|p|] == p
  }

  /** ECMAScript's `includes`: `p` occurs somewhere in `s`. */
  predicate Contains(s: string, p: string)
    ensures Contains(s, p) ==> |p| <= |s|
    ensures p == [] ==> Contains(s, p)
    decreases |s|
  {
    StartsWith(s, p) || (|s| > 0 && Contains(s[1..], p))
  }

  /** A non-empty pattern can only occur in a string that holds its first
      character. */
  lemma {:induction false} ContainsNeedsFirstChar(s: string, p: string)
    requires |p| > 0 && Contains(s, p)
    ensures p[0] in s
    decreases |s|
  {
    if StartsWith(s, p) {
      assert s[0] == p[0];
    } else {
      ContainsNeedsFirstChar(s[1..], p);
    }
  }

  /** A string lacking the pattern's first character does not contain it. */
  lemma MissingFirstCharNotContained(s: string, p: string)
    requires |p| > 0 && p[0] !in s
    ensures !Contains(s, p)
  {
    if Contains(s, p) {
      ContainsNeedsFirstChar(s, p);
    }
  }

  /** `p` occurs in `s` starting at index `k`. */
  predicate OccursAt(s: string, p: string, k: int) {
    0 <= k && k + |p| <= |s| && s[k..k + |p|] == p
  }

  /** The recursive search agrees with the index definition of an
      occurrence: `s` includes `p` exactly when `p` occurs at some index. */
  lemma {:induction false} ContainsIffOccurs(s: string, p: string)
    ensures Contains(s, p) <==> exists k :: OccursAt(s, p, k)
    decreases |s|
  {
    if Contains(s, p) {
      if StartsWith(s, p) {
        assert OccursAt(s, p, 0);
      } else {
        ContainsIffOccurs(s[1..], p);
        var k :| OccursAt(s[1..], p, k);
        assert s[1..][k..k + |p|] == s[k + 1..k + 1 + |p|];
        assert OccursAt(s, p, k + 1);
      }
    }
    if exists k :: OccursAt(s, p, k) {
      var k :| OccursAt(s, p, k);
      if k == 0 {
        assert StartsWith(s, p);
      } else {
        assert s[1..][k - 1..k - 1 + |p|] == s[k..k + |p|];
        assert OccursAt(s[1..], p, k - 1);
        ContainsIffOccurs(s[1..], p);
      }
    }
  }
}

=== FILE: types.dfy ===
/** The record shapes the session works on: document kinds, templates and
    their form fields, generated documents, user profiles and form data. */
module Types {
  import opened Wrappers

  /** The fixed enumeration of template kinds. */
  datatype DocType =
    | Resignation
    | BankComplaint
    | PoliceComplaint
    | CollegeApplication
    | OfficeApology
    | LeaveLetter

  datatype FieldKind = TextField | TextArea | DateField

  /** One input of a template's form; an absent `required` flag reads as false. */
  datatype FormField = FormField(name: string, caption: string, kind: FieldKind, required: bool)

  /** A template of the catalog: which kind of document it produces and
      which fields its form asks for. */
  datatype Template = Template(id: string, docType: DocType, title: string, fields: seq<FormField>)

  /** A submitted form: its (field name, value) entries in form order. */
  type FormData = seq<(string, string)>

  /** A generated document. Its id is either a transient clock string or an
      id assigned by storage. */
  datatype Doc = Doc(
    id: string,
    docType: DocType,
    text: string,
    inputData: Option<FormData>,
    createdAt: string)

  datatype Profile = Profile(id: string, email: string, plan: string, credits: int)

  /** The authenticated identity; only its id is consulted. */
  datatype User = User(id: string)
}

=== FILE: workflow.dfy ===
/** The session driven by a sequence of events. Identity events pass the
    session's own current user as the previous identity and run the claim
    they ask for; submissions take the generator's answer through the
    service's classifier, as written or with blank replies rejected. */
module Workflow {
  import opened Wrappers
  import opened Types
  import opened Session
  import Generator
  import Text

  /** The environment of a run: whether storage and the generator key are
      configured and the template catalog. `rejectBlank` is not a setting of
      the program: it switches between the classifier as written (false) and
      the corrected one that rejects blank replies (true). */
  datatype Env = Env(storageConfigured: bool, aiConfigured: bool, catalog: seq<Template>, rejectBlank: bool)

  /** One user action or collaborator answer. An identity event carries the
      answer the claim insert would get, used only when the event asks for a
      claim. */
  datatype Event =
    | Select(template: Template)
    | Submit(data: FormData, sdk: Generator.SdkOutcome, clock: string, save: InsertOutcome, createdAt: string)
    | Restore(found: Option<User>)
    | Auth(newUser: Option<User>, claimInsert: InsertOutcome)
    | Open(doc: Doc)
    | ProfileLoaded(row: Option<Profile>)
    | Copy
    | Download

  /** The generator's answer to a submission under `env`. */
  function Generate(env: Env, sdk: Generator.SdkOutcome): Result<string, string> {
    if env.rejectBlank then Generator.ClassifyNonBlank(env.aiConfigured, sdk)
    else Generator.Classify(env.aiConfigured, sdk)
  }

  /** The identity handler: the transition with the session's own user as
      the previous one, followed by the claim of the document it names.
      Signing out resets what belongs to the previous user; signing in from
      a guest session with a claimable document on screen inserts it once,
      and a successful insert relabels it and logs one credit. */
  function SignInOrOut(env: Env, s: State, newUser: Option<User>, claimInsert: InsertOutcome): (r: Transition)
    ensures r.state.user == newUser
    ensures !s.isGenerating ==> !r.state.isGenerating
    ensures newUser.None? ==>
              && r.state == s.(user := None, profile := None, history := [], active := None, selected := None)
              && r.effects == []
    ensures newUser.Some? ==> |r.effects| >= 1 && r.effects[0] == FetchProfile(newUser.value.id)
    ensures newUser.Some? && (s.user.Some? || s.active.None?) ==>
              r == Transition(s.(user := newUser), [FetchProfile(newUser.value.id)])
    ensures newUser.Some? && (!env.storageConfigured || claimInsert.None? || s.active.None? || !Claimable(s.active.value)) ==>
              && r.state == s.(user := newUser)
              && Count(r.effects, IsUsageLog) == 0
    ensures newUser.Some? && s.user.None? && s.active.Some? && env.storageConfigured && Claimable(s.active.value) ==>
              Count(r.effects, IsDocumentInsert) == 1
    ensures newUser.Some? && s.user.None? && s.active.Some? && env.storageConfigured && Claimable(s.active.value)
            && claimInsert.Some? ==>
              && Count(r.effects, IsUsageLog) == 1
              && LogUsage(newUser.value.id, CLAIM_ACTION, 1, claimInsert.value) in r.effects
              && r.state.active == Some(s.active.value.(id := claimInsert.value))
              && r.state.history == [s.active.value.(id := claimInsert.value)] + s.history
    ensures Count(r.effects, IsCreditUpdate) == 0
  {
    var t := AuthTransition(s, s.user, newUser);
    if newUser.Some? && s.user.None? && s.active.Some? then
      var c := ClaimDocument(t.state, newUser.value.id, s.active.value, env.storageConfigured, claimInsert);
      CountAppend(t.effects, c.effects, IsDocumentInsert);
      CountAppend(t.effects, c.effects, IsUsageLog);
      CountAppend(t.effects, c.effects, IsCreditUpdate);
      Transition(c.state, t.effects + c.effects)
    else t
  }

  function Step(env: Env, s: State, e: Event): (r: Transition)
    ensures !s.isGenerating ==> !r.state.isGenerating
    ensures e.Auth? ==> r.state.user == e.newUser
    ensures e.Restore? ==> r.state == s.(user := e.found)
  {
    match e
    case Select(t) => Transition(SelectTemplate(s, t), [])
    case Submit(data, sdk, clock, save, createdAt) =>
      SubmitGeneration(s, data, Generate(env, sdk), clock, save, createdAt, env.storageConfigured)
    case Restore(found) => RestoreSession(s, found)
    case Auth(newUser, claimInsert) => SignInOrOut(env, s, newUser, claimInsert)
    case Open(doc) => Transition(OpenFromHistory(s, doc, env.catalog), [])
    case ProfileLoaded(row) => Transition(ProfileFetched(s, row), [])
    case Copy => CopyText(s)
    case Download => DownloadPdf(s)
  }

  /** The final session of a run and every collaborator call it issued, in
      order. No run leaves a generation pending. */
  function Run(env: Env, s: State, events: seq<Event>): (r: Transition)
    ensures !s.isGenerating ==> !r.state.isGenerating
    ensures events == [] ==> r.effects == []
    decreases |events|
  {
    if events == [] then Transition(s, [])
    else
      var first := Step(env, s, events[0]);
      var rest := Run(env, first.state, events[1..]);
      Transition(rest.state, first.effects + rest.effects)
  }

  /** The local balance is never negative. */
  predicate CreditFloor(s: State) {
    s.profile.Some? ==> s.profile.value.credits >= 0
  }

  /** Storage only ever hands back non-negative balances. */
  predicate SoundRow(e: Event) {
    e.ProfileLoaded? && e.row.Some? ==> e.row.value.credits >= 0
  }

  /** Every balance written to storage is non-negative. */
  predicate WritesNonNegative(effects: seq<Effect>) {
    forall i :: 0 <= i < |effects| && effects[i].UpdateCredits? ==> effects[i].credits >= 0
  }

  /** A submission keeps the floor, writes no negative balance and never
      raises the local balance. */
  lemma SubmitKeepsCreditFloor(
    s: State, data: FormData, gen: Result<string, string>, clock: string,
    save: InsertOutcome, createdAt: string, storageConfigured: bool)
    requires CreditFloor(s)
    ensures var r := SubmitGeneration(s, data, gen, clock, save, createdAt, storageConfigured);
            && CreditFloor(r.state)
            && WritesNonNegative(r.effects)
            && (r.state.profile.Some? ==>
                  s.profile.Some? && r.state.profile.value.credits <= s.profile.value.credits)
  {
    var begun := BeginGeneration(s, data);
    if begun.effects != [] {
      var done := CompleteGeneration(begun.state, data, gen, clock, save, createdAt, storageConfigured);
      assert WritesNonNegative(begun.effects + done.effects) by {
        forall i | 0 <= i < |begun.effects + done.effects| && (begun.effects + done.effects)[i].UpdateCredits?
          ensures (begun.effects + done.effects)[i].credits >= 0
        {
          assert i >= |begun.effects|;
          assert (begun.effects + done.effects)[i] == done.effects[i - |begun.effects|];
        }
      }
    }
  }

  /** One event keeps the floor, writes no negative balance, and, unless it
      is a profile load, never raises the local balance. */
  lemma StepKeepsCreditFloor(env: Env, s: State, e: Event)
    requires CreditFloor(s) && SoundRow(e)
    ensures CreditFloor(Step(env, s, e).state)
    ensures WritesNonNegative(Step(env, s, e).effects)
    ensures !e.ProfileLoaded? && Step(env, s, e).state.profile.Some? ==>
              s.profile.Some? && Step(env, s, e).state.profile.value.credits <= s.profile.value.credits
  {
    match e
    case Submit(data, sdk, clock, save, createdAt) =>
      SubmitKeepsCreditFloor(s, data, Generate(env, sdk), clock, save, createdAt, env.storageConfigured);
    case _ =>
  }

  /** Over any run whose profile loads are sound, the local balance never
      goes negative and no negative balance is ever written. */
  lemma {:induction false} RunKeepsCreditFloor(env: Env, s: State, events: seq<Event>)
    requires CreditFloor(s)
    requires forall i :: 0 <= i < |events| ==> SoundRow(events[i])
    ensures CreditFloor(Run(env, s, events).state)
    ensures WritesNonNegative(Run(env, s, events).effects)
    decreases |events|
  {
    if events != [] {
      var first := Step(env, s, events[0]);
      StepKeepsCreditFloor(env, s, events[0]);
      RunKeepsCreditFloor(env, first.state, events[1..]);
      var rest := Run(env, first.state, events[1..]);
      assert WritesNonNegative(first.effects + rest.effects) by {
        forall i | 0 <= i < |first.effects + rest.effects| && (first.effects + rest.effects)[i].UpdateCredits?
          ensures (first.effects + rest.effects)[i].credits >= 0
        {
          if i < |first.effects| {
            assert (first.effects + rest.effects)[i] == first.effects[i];
          } else {
            assert (first.effects + rest.effects)[i] == rest.effects[i - |first.effects|];
          }
        }
      }
    }
  }

  /** A submission that writes a balance leaves a non-empty document on
      screen: with the blank-rejecting classifier, no credit pays for an
      empty draft. */
  lemma StepChargesOnlyForText(env: Env, s: State, e: Event)
    requires e.Submit? && env.rejectBlank
    ensures Count(Step(env, s, e).effects, IsCreditUpdate) > 0 ==>
              Step(env, s, e).state.active.Some? && Step(env, s, e).state.active.value.text != []
  {
    var gen := Generate(env, e.sdk);
    var begun := BeginGeneration(s, e.data);
    if begun.effects != [] {
      var done := CompleteGeneration(begun.state, e.data, gen, e.clock, e.save, e.createdAt, env.storageConfigured);
      CountAppend(begun.effects, done.effects, IsCreditUpdate);
    }
  }

  /** As the service is written, a whitespace-only reply is classified as
      an empty document, and a signed-in user is charged for it. */
  lemma BlankReplyChargedForEmptyDocument(
    env: Env, s: State, data: FormData, clock: string, save: InsertOutcome, createdAt: string)
    requires !env.rejectBlank && env.aiConfigured && env.storageConfigured
    requires s.selected.Some? && !s.isGenerating && !QuotaExhausted(s) && !IsDuplicate(s, data)
    requires s.user.Some?
    ensures var r := Step(env, s, Submit(data, Generator.Responded(Some(" ")), clock, save, createdAt));
            && UpdateCredits(s.user.value.id, Debit(CreditsOrZero(s))) in r.effects
            && r.state.active.Some? && r.state.active.value.text == ""
  {
    Generator.BlankResponseAccepted();
    assert Generate(env, Generator.Responded(Some(" "))) == Ok("");
    var begun := BeginGeneration(s, data);
    var done := CompleteGeneration(begun.state, data, Ok(""), clock, save, createdAt, true);
    assert done.effects[1] == UpdateCredits(s.user.value.id, Debit(CreditsOrZero(s)));
    assert (begun.effects + done.effects)[2] == done.effects[1];
  }

  /** The identity handler inserts and logs at most one claimed document,
      and only when it signs in from a guest session. */
  lemma SignInClaimsAtMostOnce(env: Env, s: State, newUser: Option<User>, claimInsert: InsertOutcome)
    ensures var r := SignInOrOut(env, s, newUser, claimInsert);
            var bound := if s.user.None? && newUser.Some? then 1 else 0;
            Count(r.effects, IsDocumentInsert) <= bound && Count(r.effects, IsUsageLog) <= bound
  {
    var t := AuthTransition(s, s.user, newUser);
    if newUser.Some? && s.user.None? && s.active.Some? {
      var c := ClaimDocument(t.state, newUser.value.id, s.active.value, env.storageConfigured, claimInsert);
      CountAppend(t.effects, c.effects, IsDocumentInsert);
      CountAppend(t.effects, c.effects, IsUsageLog);
    }
  }

  predicate IsSignIn(e: Event) {
    e.Auth? && e.newUser.Some?
  }

  /** However often the identity handler fires with a signed-in session (a
      token refresh, a duplicated notification), the document on screen is
      claimed at most once: one insert and one usage-log entry at most, and
      none when the run starts signed in. */
  lemma {:induction false} RepeatedSignInsClaimOnce(env: Env, s: State, events: seq<Event>)
    requires forall i :: 0 <= i < |events| ==> IsSignIn(events[i])
    ensures var bound := if s.user.None? then 1 else 0;
            && Count(Run(env, s, events).effects, IsDocumentInsert) <= bound
            && Count(Run(env, s, events).effects, IsUsageLog) <= bound
    decreases |events|
  {
    if events != [] {
      var e := events[0];
      var first := Step(env, s, e);
      SignInClaimsAtMostOnce(env, s, e.newUser, e.claimInsert);
      assert first.state.user.Some?;
      RepeatedSignInsClaimOnce(env, first.state, events[1..]);
      var rest := Run(env, first.state, events[1..]);
      CountAppend(first.effects, rest.effects, IsDocumentInsert);
      CountAppend(first.effects, rest.effects, IsUsageLog);
    }
  }

  /** A run is its first step followed by the run of the rest. */
  lemma RunCons(env: Env, s: State, e: Event, rest: seq<Event>)
    ensures var first := Step(env, s, e);
            var tail := Run(env, first.state, rest);
            Run(env, s, [e] + rest) == Transition(tail.state, first.effects + tail.effects)
  {
    assert ([e] + rest)[0] == e && ([e] + rest)[1..] == rest;
  }

  /** A run of three events is the three steps in turn. */
  lemma RunOfThree(env: Env, s: State, e1: Event, e2: Event, e3: Event)
    ensures var a := Step(env, s, e1);
            var b := Step(env, a.state, e2);
            var c := Step(env, b.state, e3);
            Run(env, s, [e1, e2, e3]) == Transition(c.state, a.effects + b.effects + c.effects)
  {
    var a := Step(env, s, e1);
    var b := Step(env, a.state, e2);
    var c := Step(env, b.state, e3);
    RunCons(env, s, e1, [e2, e3]);
    assert [e1] + [e2, e3] == [e1, e2, e3];
    RunTwo(env, a.state, e2, e3);
    assert a.effects + (b.effects + c.effects) == a.effects + b.effects + c.effects;
  }

  lemma RunTwo(env: Env, s: State, e2: Event, e3: Event)
    ensures var b := Step(env, s, e2);
            var c := Step(env, b.state, e3);
            Run(env, s, [e2, e3]) == Transition(c.state, b.effects + c.effects)
  {
    var b := Step(env, s, e2);
    RunCons(env, s, e2, [e3]);
    assert [e2] + [e3] == [e2, e3];
    RunOne(env, b.state, e3);
  }

  lemma RunOne(env: Env, s: State, e: Event)
    ensures Run(env, s, [e]) == Step(env, s, e)
  {
    RunCons(env, s, e, []);
    assert [e] + [] == [e];
    assert Step(env, s, e).effects + [] == Step(env, s, e).effects;
  }

  /** Effects of a run whose first step calls nothing, whose second only
      calls the generator, and whose third inserts and logs once. */
  lemma GuestRunCounts(a: seq<Effect>, b: seq<Effect>, c: seq<Effect>, log: Effect)
    requires a == [] && |b| == 1 && b[0].CallGenerator?
    requires Count(c, IsDocumentInsert) == 1 && Count(c, IsUsageLog) == 1 && Count(c, IsCreditUpdate) == 0
    requires log in c
    ensures Count(a + b + c, IsDocumentInsert) == 1 && Count(a + b + c, IsUsageLog) == 1
    ensures Count(a + b + c, IsCreditUpdate) == 0 && log in a + b + c
  {
    assert a + b + c == b + c;
    CountAppend(b, c, IsDocumentInsert);
    CountAppend(b, c, IsUsageLog);
    CountAppend(b, c, IsCreditUpdate);
  }

  /** A guest's submission with a reply that is not blank: the trimmed
      reply goes on screen under the clock id, outside the history, after a
      single generator call, whichever classifier is in use. */
  lemma GuestSubmission(env: Env, t: Template, data: FormData, reply: string, clock: string, createdAt: string)
    requires env.aiConfigured
    requires reply != [] && !Text.AllWhitespace(reply)
    ensures var s1 := Step(env, Initial, Select(t)).state;
            var t2 := Step(env, s1, Submit(data, Generator.Responded(Some(reply)), clock, None, createdAt));
            && t2.state.active == Some(Doc(clock, t.docType, Text.Trim(reply), None, createdAt))
            && t2.state.history == [] && t2.state.user.None?
            && t2.effects == [CallGenerator(t.docType, data)]
  {
    assert Generate(env, Generator.Responded(Some(reply))) == Ok(Text.Trim(reply));
  }

  /** Signing in from a guest session whose claimable document is not yet
      in the history: the stored copy replaces it on screen and becomes the
      whole history, after one insert, one usage-log entry and no balance
      write. */
  lemma GuestSignInClaims(env: Env, s: State, u: User, id: string)
    requires env.storageConfigured && s.user.None? && s.active.Some? && Claimable(s.active.value)
    requires s.history == []
    ensures var r := Step(env, s, Auth(Some(u), Some(id)));
            && r.state.user == Some(u)
            && r.state.active == Some(s.active.value.(id := id))
            && r.state.history == [s.active.value.(id := id)]
            && Count(r.effects, IsDocumentInsert) == 1
            && Count(r.effects, IsUsageLog) == 1
            && Count(r.effects, IsCreditUpdate) == 0
            && LogUsage(u.id, CLAIM_ACTION, 1, id) in r.effects
  {
  }

  /** A guest picks a template, submits a form, gets a reply and signs in,
      and the sign-in claims the document. The run ends signed in with
      exactly one stored copy of the text on screen and in the history,
      after one insert, one usage-log entry and no balance write. */
  lemma GuestClaimRun(
    env: Env, t: Template, data: FormData, reply: string, clock: string, id: string, u: User, createdAt: string)
    requires env.storageConfigured && env.aiConfigured
    requires reply != [] && !Text.AllWhitespace(reply)
    requires TransientIdShape(clock)
    ensures
      var doc := Doc(id, t.docType, Text.Trim(reply), None, createdAt);
      var r := Run(env, Initial, [Select(t), Submit(data, Generator.Responded(Some(reply)), clock, None, createdAt),
                                  Auth(Some(u), Some(id))]);
      && r.state.user == Some(u)
      && r.state.active == Some(doc)
      && r.state.history == [doc]
      && Count(r.effects, IsDocumentInsert) == 1
      && Count(r.effects, IsUsageLog) == 1
      && Count(r.effects, IsCreditUpdate) == 0
      && LogUsage(u.id, CLAIM_ACTION, 1, id) in r.effects
  {
    var select := Select(t);
    var submit := Submit(data, Generator.Responded(Some(reply)), clock, None, createdAt);
    var auth := Auth(Some(u), Some(id));
    GuestSubmission(env, t, data, reply, clock, createdAt);
    var t1 := Step(env, Initial, select);
    var t2 := Step(env, t1.state, submit);
    var t3 := Step(env, t2.state, auth);
    RunOfThree(env, Initial, select, submit, auth);
    ClockIdsClaimable(t2.state.active.value);
    GuestSignInClaims(env, t2.state, u, id);
    GuestRunCounts(t1.effects, t2.effects, t3.effects, LogUsage(u.id, CLAIM_ACTION, 1, id));
  }
}

=== FILE: wrappers.dfy ===
/** Optional values and success/failure outcomes, the model's stand-ins for
    `null` and for a thrown error. */
module Wrappers {

  /** A value that may be absent (`null` / `undefined` in the source). */
  datatype Option<+T> = None | Some(value: T)

  /** The outcome of an operation that either returns a value or throws an
      error carrying a message. */
  datatype Result<+T, +E> = Ok(value: T) | Err(error: E)
}
